=== FILE: README.md ===
# Todo list stores, their request checks and the task log

A Dafny model of the to-do list back ends of the course repository. It covers four parts:

- **The lab 3 reference store** (`lab3-doc/project/models.py`). `TodoList` keeps an
  insertion-ordered dictionary from id to a record `{id, task, completed, priority, category}`,
  together with a counter that hands out the next id. It can load itself from `database.json`;
  add, remove, query, update and toggle records; and report progress.
  Modelled in module `TodoStore`.
- **The lab 2 API** (`lab2-doc/heziyuan-2300012806/app.py`). An in-memory `TodoList` maps ids
  to plain task text. The `POST /todos`, `PUT /todos/<id>` and `DELETE /todos/<id>` handlers
  check the JSON body before they touch the list. Modelled in module `SimpleTodo`.
- **The task log of the lab 3 SQLite back end** (`lab3-doc/heziyuan-2300012806/project/app.py`).
  - `load_task_log` reads the JSON file. A file whose first element looks like an action-log
    entry is replayed into a by-id map; any other list is taken as a plain list of task dicts.
  - `append_task_log` rewrites the list for an `add`, a `delete` or an upsert.
  - `delete_todo` drops the deleted id from the list.

  Modelled in module `TaskLog`.
- **`escapeHtml` of the front end** (`lab3-doc/project/static/script.js`). It replaces the
  five characters `& < > " '` by their HTML character references. Modelled in module
  `HtmlEscape`. Its inverse is the decoding of those references (`Unescape`), as the HTML Living
  Standard defines it in its section "Character references".

Supporting modules model the Python built-ins that the code relies on:

- `Wrappers`: `Option` and `Result`.
- `Seqs`: list comprehensions as order-preserving filters.
- `PyDict`: `dict`, which keeps insertion order.
- `Json`: decoded JSON values, with Python truthiness, `dict.get`, `True == 1` equality and
  hashing.
- `PyStr`: `str.strip()`.

A Python exception that the modelled code raises and does not catch becomes an `Err`:
`AttributeError` from `.get` on a non-dict, and `TypeError` from an unhashable id.
Exceptions that the code does catch become the reply or the "file unchanged" outcome that
the handler produces.

## Model

| member | source | states |
|---|---|---|
| Seqs.Filter | lab3-doc/project/models.py:48-52 | a list comprehension keeps only elements of the input, exactly those satisfying the condition, never more of them |
| PyDict.Empty | lab3-doc/project/models.py:17 | `{}` is a well-formed dict with no keys |
| PyDict.Put | lab3-doc/project/models.py:33 | `d[k] = v` makes `k` map to `v` and leaves every other key alone; a present key keeps its place in iteration order, a new key goes last |
| PyDict.Pop | lab3-doc/project/models.py:40 | `d.pop(k, None)` returns the old value or None and removes only `k`; the remaining keys keep their relative order (the old order with `k` filtered out); the dict shrinks by one exactly when `k` was there; nothing changes otherwise |
| PyDict.PutThenPop | lab3-doc/project/models.py:33-40 | popping a key that was just inserted gives back its value and the original dict, order included |
| PyDict.Values | lab3-doc/project/models.py:46 | `list(d.values())` lists one value per key, in insertion order |
| PyDict.ValuesExactly | lab3-doc/project/models.py:46 | a value occurs in `list(d.values())` exactly when some key maps to it |
| PyDict.FromPairs | lab3-doc/project/models.py:14 | a dict comprehension has exactly the keys of the pairs; each key holds the value of its last pair; keys are ordered by their first pair |
| Json.KeyOf | lab3-doc/heziyuan-2300012806/project/app.py:92 | lists and dicts cannot be dict keys, while None, numbers, booleans and strings can |
| Json.KeyOfAgreesWithEquality | lab3-doc/heziyuan-2300012806/project/app.py:92-94 | two hashable ids select the same dict slot exactly when Python considers them equal, including `True == 1` |
| PyStr.Strip | lab2-doc/heziyuan-2300012806/app.py:78 | `strip()` returns a middle slice of the input, with only whitespace cut off on each side and no whitespace left at either end |
| PyStr.StripEmptyIff | lab2-doc/heziyuan-2300012806/app.py:78-79 | the stripped task is empty exactly when the given task was all whitespace |
| PyStr.StripIdempotent | lab2-doc/heziyuan-2300012806/app.py:78 | stripping an already stripped task changes nothing |
| HtmlEscape.EscapeChar | lab3-doc/project/static/script.js:149 | each of the five special characters becomes an `&...;` reference free of markup characters, and any other character is kept |
| HtmlEscape.Escape | lab3-doc/project/static/script.js:149 | the escaped text has no `<`, `>`, `"` or `'`, is never shorter than the input, and has the same length exactly when nothing needed escaping |
| HtmlEscape.EscapeConcat | lab3-doc/project/static/script.js:149 | escaping works character by character, so it distributes over concatenation |
| HtmlEscape.EscapePlain | lab3-doc/project/static/script.js:149 | text without the five characters is returned unchanged |
| HtmlEscape.UnescapeEscapeChar | lab3-doc/project/static/script.js:149 | the reference produced for one character decodes back to that character, whatever follows it |
| HtmlEscape.UnescapeEscape | lab3-doc/project/static/script.js:149 | decoding the five character references undoes escaping, so decoding gives back the original text |
| HtmlEscape.EscapeInjective | lab3-doc/project/static/script.js:149 | different strings never escape to the same markup |
| TodoStore.MaxKey | lab3-doc/project/models.py:15 | `max(keys)` is one of the keys and no key exceeds it |
| TodoStore.Load | lab3-doc/project/models.py:9-19 | a missing file gives no todos and counter 1; a file gives exactly its todos' keys, each holding its last record, in first-occurrence order; a stored counter is used as is; without one the counter is 1 for no todos and otherwise one above an id in use and above every id, that is max + 1 |
| TodoStore.LoadEstablishesInv | lab3-doc/project/models.py:9-19 | loading a file whose records carry their own ids, and whose counter, if stored, lies above every id, yields a store whose counter is fresh and whose records sit under their ids |
| TodoStore.Add | lab3-doc/project/models.py:25-36 | the new record has the counter as id, the given text, priority and category, and is not completed; the counter goes up by one; no other record changes; under the invariant the record is appended last and the invariant holds again |
| TodoStore.AddThenRemove | lab3-doc/project/models.py:25-43 | removing the id just added returns that record and restores the dict, while the counter stays advanced |
| TodoStore.Remove | lab3-doc/project/models.py:38-43 | remove returns the record under the id or None; only that entry goes and the size drops by one; the other records keep their order; an absent id changes nothing; the counter never goes back |
| TodoStore.GetItems | lab3-doc/project/models.py:45-53 | a record is listed exactly when it is stored and meets every criterion given; with no criterion all records are listed in store order |
| TodoStore.GetItemsIsOneFilter | lab3-doc/project/models.py:45-53 | the three successive narrowings equal one filter by all the criteria over the records in store order |
| TodoStore.GetItem | lab3-doc/project/models.py:55-56 | `get_item` returns None exactly for an absent id; otherwise it returns the record stored under that id, the one `remove_item` would hand back, which `get_items` lists and which carries that id whenever records sit under their own ids |
| TodoStore.Update | lab3-doc/project/models.py:58-73 | on a present id, each field given replaces the old value, with `completed` taken through `bool`; the fields not given, the id, the position and the other records stay; an absent id returns None and changes nothing |
| TodoStore.UpdateNothingIsIdentity | lab3-doc/project/models.py:58-73 | an update that gives no field leaves the store unchanged |
| TodoStore.Toggle | lab3-doc/project/models.py:75-82 | a present record gets `completed` negated and nothing else changes; an absent id returns None and changes nothing |
| TodoStore.ToggleIsUpdate | lab3-doc/project/models.py:58-82 | toggling is the same as updating `completed` alone to the opposite value |
| TodoStore.ToggleTwice | lab3-doc/project/models.py:75-82 | toggling the same id twice restores the store |
| TodoStore.Percent | lab3-doc/project/models.py:87 | the percentage lies between 0 and 100, is 0 for an empty list, and is 100 exactly when every record is completed |
| TodoStore.Summary | lab3-doc/project/models.py:84-88 | `total` is the number of records, `completed` never exceeds it, and `percent` is their ratio |
| TodoStore.SummaryAgreesWithGetItems | lab3-doc/project/models.py:84-88 | the counts from `progress` equal the lengths of the unfiltered, completed and open lists from `get_items` |
| SimpleTodo.Init | lab2-doc/heziyuan-2300012806/app.py:6-8 | a new list is empty, its next id is 1, and it satisfies the invariant |
| SimpleTodo.AddItem | lab2-doc/heziyuan-2300012806/app.py:10-14 | the reply's id is the id the text was stored under, which is the counter before the call; the counter goes up by one; no other entry changes |
| SimpleTodo.AddThenRemove | lab2-doc/heziyuan-2300012806/app.py:10-20 | removing the id just handed out returns its text and restores the dict, while the counter stays advanced |
| SimpleTodo.RemoveItem | lab2-doc/heziyuan-2300012806/app.py:16-20 | remove returns the text under the id or None; only that entry goes and the others keep their order; an absent id changes nothing |
| SimpleTodo.UpdateItem | lab2-doc/heziyuan-2300012806/app.py:26-31 | returns None exactly for an absent id, and then nothing changes; otherwise the text is replaced in place, the reply is `{id: task}`, and other entries stay |
| SimpleTodo.IdsNeverReused | lab2-doc/heziyuan-2300012806/app.py:10-14 | over any sequence of calls the ids handed out are consecutive from the starting counter, strictly increasing, and never an id in use at the start |
| SimpleTodo.ReadTask | lab2-doc/heziyuan-2300012806/app.py:72-83 | a falsy body, a dict without `task`, or a list or string not containing `task` is a 400 "missing"; an all-whitespace string task is a 400 "empty"; a non-string task, a list or string containing `task`, and a truthy number are a 500; otherwise the task is accepted as its stripped form, which is non-empty |
| SimpleTodo.CreateTodo | lab2-doc/heziyuan-2300012806/app.py:66-96 | a body the check rejects gets exactly that reply and leaves the list unchanged; an accepted body is always created, with the checked text under the next id, and no other entry changes |
| SimpleTodo.UpdateTodo | lab2-doc/heziyuan-2300012806/app.py:98-134 | body errors come first and are returned as they are; a valid task gives 404 exactly for an absent id and is otherwise always an update of that entry alone; order and counter stay |
| SimpleTodo.DeleteTodo | lab2-doc/heziyuan-2300012806/app.py:136-157 | the reply is 404 exactly for an absent id, with no change; otherwise the deleted text is returned, the id is gone and every other entry stays |
| SimpleTodo.Status | lab2-doc/heziyuan-2300012806/app.py:72-157 | the status is below 300 exactly for created, updated and deleted replies; it is 400 exactly for a missing or empty task, 404 exactly for an unknown id, and 500 exactly for a handler that raised |
| TaskLog.EffectOf | lab3-doc/heziyuan-2300012806/project/app.py:84-94 | an entry raises exactly when it is not a dict, or is an add, update or delete of a dict task with a list or dict id; a non-dict task, a None id or another action is skipped; an add or update with a dict task and a hashable non-None id is exactly a write of that task under its id, and a delete is exactly an erase of that id |
| TaskLog.Apply | lab3-doc/heziyuan-2300012806/project/app.py:91-94 | an add or update stores the task under its key; a delete leaves its key absent; either leaves every other key as it was; a step fails only on a failing entry; tasks stay under their own ids; a skipped entry, or a delete of an absent id, changes nothing |
| TaskLog.ReplayMap | lab3-doc/heziyuan-2300012806/project/app.py:82-95 | a replay that completes yields a well-formed dict whose every task is a dict stored under its own id |
| TaskLog.ReplayFailsIff | lab3-doc/heziyuan-2300012806/project/app.py:83-94 | the replay raises exactly when some entry is not a dict, or is an add, update or delete with a list or dict id |
| TaskLog.Replay | lab3-doc/heziyuan-2300012806/project/app.py:82-95 | the replay raises exactly when some entry raises; otherwise it lists exactly the stored tasks, one per id, in the dict's insertion order, each carrying its id |
| TaskLog.LoadTaskLog | lab3-doc/heziyuan-2300012806/project/app.py:56-97 | a missing or unreadable file, a non-list or an empty list loads as `[]`; a list whose first element is not an action entry is returned as is; otherwise the log is replayed |
| TaskLog.ReplayKeepsLastWrite | lab3-doc/heziyuan-2300012806/project/app.py:82-95 | after replay an id is present exactly when its last add, update or delete was an add or update, and it holds that entry's task |
| TaskLog.ReplayListKeepsLastWrite | lab3-doc/heziyuan-2300012806/project/app.py:82-95 | the list returned for an action log holds a task with a given id exactly when that id's last add, update or delete was an add or update, and that task is the one the entry carried |
| TaskLog.SkippedEntryIsInvisible | lab3-doc/heziyuan-2300012806/project/app.py:86-90 | an entry the loop skips can be removed from the log without changing the replay |
| TaskLog.ReplayIdsUnique | lab3-doc/heziyuan-2300012806/project/app.py:82-95 | the replayed list holds only dicts with hashable ids, no two of which are equal |
| TaskLog.DropId | lab3-doc/heziyuan-2300012806/project/app.py:124 | the id filter raises exactly when some task is not a dict; otherwise it keeps, in order, exactly the tasks with a different id |
| TaskLog.DropIdConcat | lab3-doc/heziyuan-2300012806/project/app.py:124 | filtering a concatenation is filtering each part, so the kept tasks keep their relative order |
| TaskLog.AppendTaskLog | lab3-doc/heziyuan-2300012806/project/app.py:111-128 | a load error propagates; `add` appends the task after the unchanged list; any other action succeeds exactly when the id filter can run |
| TaskLog.AppendDeleteDrops | lab3-doc/heziyuan-2300012806/project/app.py:123-124 | `delete` keeps, in order, exactly the loaded tasks whose id differs from the task's |
| TaskLog.AppendUpsertReplaces | lab3-doc/heziyuan-2300012806/project/app.py:125-128 | an upsert is the delete of the same id followed by an append, so the task comes last and is the only one with its id |
| TaskLog.DeleteTodoLog | lab3-doc/heziyuan-2300012806/project/app.py:204-212 | the file is rewritten exactly when the row existed and the load and filter did not raise, and then it keeps, in order, exactly the tasks with another id |
| TaskLog.SavedListReloads | lab3-doc/heziyuan-2300012806/project/app.py:73-97 | a list written back loads back unchanged, unless its first task itself looks like an action-log entry |

## Left out

- File and database I/O. This covers `os.path.exists`, `open`, `json.load`, `json.dump`, `_save`, `save_tasks` and every SQLite query. The decoded file is an input (`Option<...>`), a write is the returned value, and the database row of `delete_todo` is the flag `rowFound`.
- Flask routing, `request.get_json()` and its failure modes, and `jsonify`. A request body is a decoded `Json` value, and a reply is the `Reply` datatype with its status code.
- The other routes of the lab 3 SQLite back end, such as `complete_todo` and the list and create routes. They are database code outside the modelled core. So are the other labs and students' copies of these files.
- TodoStore.Load: keys are taken as already converted by `int(k)`, records as already complete with all five fields, and the counter as an integer. A non-numeric key raising `ValueError` is not modelled.
- TodoStore.Load: a stored counter that is not above every id is taken as is, as the code does. The invariant is then not established, so `LoadEstablishesInv` requires a stored counter to lie above every id.
- TodoStore.Remove, TodoStore.GetItem, TodoStore.Update, TodoStore.Toggle: these take the id as an `int`. The `int(id)` conversion of a string argument is not modelled.
- TodoStore.Toggle: records always carry `completed`, so the `KeyError` that a record without it would raise is not modelled.
- TodoStore.Update: `task`, `priority` and `category` are strings or None. A non-string value stored in the record is not modelled.
- TodoStore.GetItems: the `completed` criterion is a boolean. The identity test `is` is modelled as equality, which is what it means for `True` and `False`.
- TodoStore.Percent: the percentage is the exact ratio as a real number. Floating-point division and `round(..., 2)` are not modelled.
- Json.PyEq: `True == 1` is modelled for the compared values themselves, but not for booleans nested inside lists or dicts. Floats are not part of the JSON model; numbers are integers.
- Json.Truthy: an empty dict is falsy, but task records are never empty dicts, so `update_item`'s `if not item` is modelled as a presence test.
- SimpleTodo.GetItems: it returns the dictionary itself and has no contract. The `GET /todos` handler only serialises that dictionary.
- HtmlEscape.Escape: it takes a string. The `(s+'')` coercion of other JavaScript values, such as `undefined` or numbers, to a string is not modelled.

=== FILE: html_escape.dfy ===
/** `escapeHtml` of the lab 3 front end (lab3-doc/project/static/script.js):
    every occurrence of the five characters `& < > " '` is replaced by the
    HTML character reference for it, everything else is kept. Character
    references are the ones the HTML Living Standard defines in its section
    "Character references" (`&amp;`, `&lt;`, `&gt;`, `&quot;`, and the
    decimal numeric reference `&#39;` for the apostrophe). */
module HtmlEscape {

  /** The characters the regular expression `/[&<>"']/g` matches. */
  predicate IsSpecial(c: char) {
    c == '&' || c == '<' || c == '>' || c == '"' || c == '\''
  }

  /** The characters that could open or close markup or an attribute value. */
  predicate IsMarkup(c: char) {
    c == '<' || c == '>' || c == '"' || c == '\''
  }

  /** The callback's lookup table, applied to one character. */
  function EscapeChar(c: char): (r: string)
    ensures IsSpecial(c) ==> |r| > 1 && r[0] == '&' && r[|r| - 1] == ';'
    ensures !IsSpecial(c) ==> r == [c]
    ensures forall i :: 0 <= i < |r| ==> !IsMarkup(r[i])
  {
    match c
    case '&' => "&amp;"
    case '<' => "&lt;"
    case '>' => "&gt;"
    case '"' => "&quot;"
    case '\'' => "&#39;"
    case _ => [c]
  }

  /** `escapeHtml(s)` on a string argument. The result never contains a
      character that could open a tag or end an attribute value, and it is
      as long as the input exactly when nothing needed escaping. */
  function Escape(s: string): (r: string)
    ensures forall i :: 0 <= i < |r| ==> !IsMarkup(r[i])
    ensures |r| >= |s|
    ensures |r| == |s| <==> forall i :: 0 <= i < |s| ==> !IsSpecial(s[i])
  {
    if s == [] then []
    else
      var head := EscapeChar(s[0]);
      var tail := Escape(s[1..]);
      assert forall i :: 1 <= i < |s| ==> s[i] == s[1..][i - 1];
      head + tail
  }

  /** Escaping works character by character, so it distributes over
      concatenation. */
  lemma {:induction false} EscapeConcat(a: string, b: string)
    ensures Escape(a + b) == Escape(a) + Escape(b)
  {
    if a == [] {
      assert a + b == b;
    } else {
      assert (a + b)[0] == a[0];
      assert (a + b)[1..] == a[1..] + b;
      EscapeConcat(a[1..], b);
    }
  }

  /** Characters outside the five are copied unchanged. */
  lemma {:induction false} EscapePlain(s: string)
    requires forall i :: 0 <= i < |s| ==> !IsSpecial(s[i])
    ensures Escape(s) == s
  {
    if s != [] {
      EscapePlain(s[1..]);
    }
  }

  /** Decoding of the five character references, as an HTML parser reads
      them in text; any other character stands for itself. */
  function Unescape(s: string): string
    decreases |s|
  {
    if "&amp;" <= s then "&" + Unescape(s[5..])
    else if "&lt;" <= s then "<" + Unescape(s[4..])
    else if "&gt;" <= s then ">" + Unescape(s[4..])
    else if "&quot;" <= s then "\"" + Unescape(s[6..])
    else if "&#39;" <= s then "'" + Unescape(s[5..])
    else if s == [] then []
    else [s[0]] + Unescape(s[1..])
  }

  /** Decoding one escaped character in front of anything gives back that
      character. */
  lemma UnescapeEscapeChar(c: char, rest: string)
    ensures Unescape(EscapeChar(c) + rest) == [c] + Unescape(rest)
  {
    var e := EscapeChar(c);
    var s := e + rest;
    assert e <= s && s[|e|..] == rest;
    if c == '<' {
      assert s[1] == 'l';
    } else if c == '>' {
      assert s[1] == 'g';
    } else if c == '"' {
      assert s[1] == 'q';
    } else if c == '\'' {
      assert s[1] == '#';
    } else if c != '&' {
      assert s[0] == c;
    }
  }

  /** Decoding undoes escaping. */
  lemma {:induction false} UnescapeEscape(s: string)
    ensures Unescape(Escape(s)) == s
  {
    if s != [] {
      UnescapeEscapeChar(s[0], Escape(s[1..]));
      UnescapeEscape(s[1..]);
    }
  }

  /** Different strings never escape to the same text. */
  lemma EscapeInjective(a: string, b: string)
    requires Escape(a) == Escape(b)
    ensures a == b
  {
    UnescapeEscape(a);
    UnescapeEscape(b);
  }
}

=== FILE: json.dfy ===
/** A parsed JSON value as Python's `json` module hands it over, with the
    Python operations the model applies to such values: truthiness,
    `dict.get`, equality and hashing. Numbers are integers only. */
module Json {
  import opened Wrappers

  datatype Json =
    | Null                              // None
    | Bool(b: bool)
    | Num(n: int)
    | Str(s: string)
    | Arr(items: seq<Json>)             // list
    | Obj(fields: map<string, Json>)    // dict; a repeated key keeps its last value

  /** `bool(v)`: None, False, 0 and empty containers are false. */
  predicate Truthy(v: Json) {
    match v
    case Null => false
    case Bool(b) => b
    case Num(n) => n != 0
    case Str(s) => s != []
    case Arr(xs) => xs != []
    case Obj(f) => f != map[]
  }

  /** `d.get(name)` on a dict; a missing key reads as None. */
  function Field(fields: map<string, Json>, name: string): Json {
    if name in fields then fields[name] else Null
  }

  /** Python compares `True == 1` and `False == 0`; booleans are their
      integer values for equality and hashing. */
  function Norm(v: Json): Json {
    match v
    case Bool(b) => Num(if b then 1 else 0)
    case _ => v
  }

  /** `a == b` */
  predicate PyEq(a: Json, b: Json) {
    Norm(a) == Norm(b)
  }

  /** A hashable value as a dictionary key. */
  datatype Key = NoneKey | IntKey(i: int) | StrKey(s: string)

  /** `hash(v)`: lists and dicts are unhashable (a `TypeError` in Python). */
  function KeyOf(v: Json): (k: Option<Key>)
    ensures k.None? <==> v.Arr? || v.Obj?
  {
    match Norm(v)
    case Null => Some(NoneKey)
    case Num(n) => Some(IntKey(n))
    case Str(s) => Some(StrKey(s))
    case _ => None
  }

  /** Keys agree exactly when the values are equal, so a dict indexed by
      `KeyOf` behaves like one indexed by the values themselves. */
  lemma KeyOfAgreesWithEquality(a: Json, b: Json)
    requires KeyOf(a).Some? && KeyOf(b).Some?
    ensures KeyOf(a) == KeyOf(b) <==> PyEq(a, b)
  {
  }
}

=== FILE: pydict.dfy ===
/** Python's `dict`: a finite map that remembers the order in which keys were
    first inserted. Assigning to a present key keeps its position, assigning
    to a new key appends it, and `pop` removes the key and its position. */
module PyDict {
  import opened Wrappers
  import Seqs

  /** `order` lists the keys in insertion order; `vals` holds the entries. */
  datatype Dict<K, V> = Dict(order: seq<K>, vals: map<K, V>)

  predicate Distinct<K(==,!new)>(ks: seq<K>) {
    forall i, j :: 0 <= i < j < |ks| ==> ks[i] != ks[j]
  }

  /** Every key appears exactly once in `order`, and `order` names exactly
      the keys of `vals`. */
  ghost predicate Valid<K(!new), V>(d: Dict<K, V>) {
    && Distinct(d.order)
    && (forall k :: k in d.order <==> k in d.vals)
  }

  function Empty<K(==,!new), V>(): (d: Dict<K, V>)
    ensures Valid(d) && d.order == [] && d.vals == map[]
  {
    Dict([], map[])
  }

  /** `len(d)` */
  function Size<K, V>(d: Dict<K, V>): nat {
    |d.order|
  }

  /** `d.get(k)` */
  function Get<K(==,!new), V>(d: Dict<K, V>, k: K): Option<V> {
    if k in d.vals then Some(d.vals[k]) else None
  }

  /** `d[k] = v` */
  function Put<K(==,!new), V>(d: Dict<K, V>, k: K, v: V): (r: Dict<K, V>)
    requires Valid(d)
    ensures Valid(r)
    ensures r.vals == d.vals[k := v]
    ensures Get(r, k) == Some(v)
    ensures forall k' :: k' != k ==> Get(r, k') == Get(d, k')
    ensures k in d.vals ==> r.order == d.order
    ensures k !in d.vals ==> r.order == d.order + [k]
  {
    if k in d.vals then Dict(d.order, d.vals[k := v])
    else Dict(d.order + [k], d.vals[k := v])
  }

  /** The position of a present key in the insertion order. */
  function IndexOf<K(==,!new)>(ks: seq<K>, k: K): (i: nat)
    requires k in ks
    ensures i < |ks| && ks[i] == k
    ensures forall j :: 0 <= j < i ==> ks[j] != k
  {
    if ks[0] == k then 0 else 1 + IndexOf(ks[1..], k)
  }

  /** The test "is a key other than `k`". */
  function Other<K(==)>(k: K): K -> bool {
    (k': K) => k' != k
  }

  /** In a list of distinct keys, the key at `i` occurs nowhere before `i`. */
  lemma NotBefore<K(!new)>(ks: seq<K>, i: nat)
    requires Distinct(ks) && i < |ks|
    ensures forall y :: y in ks[..i] ==> y != ks[i]
  {
    forall y | y in ks[..i]
      ensures y != ks[i]
    {
      var j :| 0 <= j < i && ks[..i][j] == y;
      assert ks[j] == y;
    }
  }

  /** In a list of distinct keys, the key at `i` occurs nowhere from `n = i + 1` on. */
  lemma NotAfter<K(!new)>(ks: seq<K>, i: nat, n: nat)
    requires Distinct(ks) && i < |ks| && n == i + 1
    ensures forall y :: y in ks[n..] ==> y != ks[i]
  {
    forall y | y in ks[n..]
      ensures y != ks[i]
    {
      var j :| 0 <= j < |ks| - n && ks[n..][j] == y;
      assert ks[n + j] == y;
    }
  }

  /** Taking the key at position `i` out of a list of distinct keys leaves
      distinct keys, all the others, and is filtering that key out. */
  lemma DropKey<K(!new)>(ks: seq<K>, i: nat)
    requires Distinct(ks) && i < |ks|
    ensures Distinct(ks[..i] + ks[i + 1..])
    ensures forall x :: x in ks[..i] + ks[i + 1..] <==> x in ks && x != ks[i]
    ensures Seqs.Filter(ks, Other(ks[i])) == ks[..i] + ks[i + 1..]
  {
    var k := ks[i];
    var rest := ks[..i] + ks[i + 1..];
    assert ks == ks[..i] + [k] + ks[i + 1..];
    NotBefore(ks, i);
    NotAfter(ks, i, i + 1);
    assert forall j :: 0 <= j < |rest| ==> rest[j] == ks[if j < i then j else j + 1];
    Seqs.FilterDropsOne(ks[..i], k, ks[i + 1..], Other(k));
  }

  /** `d.pop(k, None)`: the removed value (if any) and the remaining dict,
      whose keys keep their relative order. */
  function Pop<K(==,!new), V>(d: Dict<K, V>, k: K): (r: (Dict<K, V>, Option<V>))
    requires Valid(d)
    ensures Valid(r.0)
    ensures r.0.vals == d.vals - {k}
    ensures r.1 == Get(d, k)
    ensures Get(r.0, k) == None
    ensures forall k' :: k' != k ==> Get(r.0, k') == Get(d, k')
    ensures k !in d.vals ==> r.0 == d
    ensures k in d.vals ==> Size(r.0) + 1 == Size(d)
    ensures r.0.order == Seqs.Filter(d.order, Other(k))
  {
    if k !in d.vals then
      Seqs.FilterAll(d.order, Other(k));
      (d, None)
    else
      var i := IndexOf(d.order, k);
      DropKey(d.order, i);
      (Dict(d.order[..i] + d.order[i + 1..], d.vals - {k}), Some(d.vals[k]))
  }

  /** Popping a key that was just added undoes the addition, insertion
      order included. */
  lemma PutThenPop<K(!new), V>(d: Dict<K, V>, k: K, v: V)
    requires Valid(d) && k !in d.vals
    ensures Pop(Put(d, k, v), k) == (d, Some(v))
  {
    var r := Put(d, k, v);
    assert k !in d.order;
    var i := IndexOf(r.order, k);
    assert i == |d.order|;
    assert r.order[..i] + r.order[i + 1..] == d.order;
    assert r.vals - {k} == d.vals;
  }

  /** `list(d.values())` */
  function Values<K(==,!new), V>(d: Dict<K, V>): (vs: seq<V>)
    requires Valid(d)
    ensures |vs| == Size(d)
    ensures forall i :: 0 <= i < |vs| ==> vs[i] == d.vals[d.order[i]]
  {
    seq(|d.order|, i requires 0 <= i < |d.order| => d.vals[d.order[i]])
  }

  /** Every stored value occurs in `Values`, and nothing else does. */
  lemma ValuesExactly<K(!new), V>(d: Dict<K, V>)
    requires Valid(d)
    ensures forall v :: v in Values(d) <==> exists k :: k in d.vals && d.vals[k] == v
  {
    var vs := Values(d);
    forall v | exists k :: k in d.vals && d.vals[k] == v
      ensures v in vs
    {
      var k :| k in d.vals && d.vals[k] == v;
      var i := IndexOf(d.order, k);
      assert vs[i] == v;
    }
  }

  /** Entry `i` is the first pair with key `k`. */
  ghost predicate FirstAt<K(!new), V>(ps: seq<(K, V)>, k: K, i: int) {
    && 0 <= i < |ps|
    && ps[i].0 == k
    && forall j :: 0 <= j < i ==> ps[j].0 != k
  }

  /** Entry `i` is the last pair with key `k`. */
  ghost predicate LastAt<K(!new), V>(ps: seq<(K, V)>, k: K, i: int) {
    && 0 <= i < |ps|
    && ps[i].0 == k
    && forall j :: i < j < |ps| ==> ps[j].0 != k
  }

  /** The first pair for a key that already occurs in `init` lies in `init`. */
  lemma FirstInPrefix<K(!new), V>(init: seq<(K, V)>, p: (K, V), x: K, i: int)
    requires exists j :: 0 <= j < |init| && init[j].0 == x
    requires FirstAt(init + [p], x, i)
    ensures i < |init| && FirstAt(init, x, i)
  {
    var ps := init + [p];
    var j0 :| 0 <= j0 < |init| && init[j0].0 == x;
    assert ps[j0].0 == x;
    assert forall j :: 0 <= j < i ==> init[j] == ps[j];
  }

  /** The step of `FromPairs` keeps the last pair's value for every key. */
  lemma LastPairStep<K(!new), V>(init: seq<(K, V)>, k: K, v: V, d: Dict<K, V>, r: Dict<K, V>)
    requires forall x :: x in d.vals ==> exists i :: LastAt(init, x, i) && init[i].1 == d.vals[x]
    requires r.vals == d.vals[k := v]
    ensures forall x :: x in r.vals ==> exists i :: LastAt(init + [(k, v)], x, i) && (init + [(k, v)])[i].1 == r.vals[x]
  {
    var ps := init + [(k, v)];
    forall x | x in r.vals
      ensures exists i :: LastAt(ps, x, i) && ps[i].1 == r.vals[x]
    {
      if x == k {
        assert LastAt(ps, x, |init|);
      } else {
        var i :| LastAt(init, x, i) && init[i].1 == d.vals[x];
        assert forall j :: 0 <= j < |init| ==> ps[j] == init[j];
        assert LastAt(ps, x, i);
      }
    }
  }

  /** The step of `FromPairs` keeps keys in order of their first pair. */
  lemma FirstPairStep<K(!new), V>(init: seq<(K, V)>, k: K, v: V, d: Dict<K, V>, r: Dict<K, V>)
    requires forall x :: x in d.order <==> exists i :: 0 <= i < |init| && init[i].0 == x
    requires forall a, b, i, j :: 0 <= a < b < |d.order| && FirstAt(init, d.order[a], i) && FirstAt(init, d.order[b], j) ==> i < j
    requires k in d.order ==> r.order == d.order
    requires k !in d.order ==> r.order == d.order + [k]
    ensures forall a, b, i, j :: 0 <= a < b < |r.order| && FirstAt(init + [(k, v)], r.order[a], i) && FirstAt(init + [(k, v)], r.order[b], j) ==> i < j
  {
    var ps := init + [(k, v)];
    forall a, b, i, j | 0 <= a < b < |r.order| && FirstAt(ps, r.order[a], i) && FirstAt(ps, r.order[b], j)
      ensures i < j
    {
      assert r.order[a] == d.order[a];
      FirstInPrefix(init, (k, v), r.order[a], i);
      if b < |d.order| {
        assert r.order[b] == d.order[b];
        FirstInPrefix(init, (k, v), r.order[b], j);
      } else {
        assert r.order[b] == k && k !in d.order;
        if j < |init| {
          assert init[j].0 == k;
        }
      }
    }
  }

  /** Building a dict from key/value pairs, as a dict comprehension does:
      the keys are those of the pairs, ordered by their first pair, and each
      holds the value of its last pair. */
  function FromPairs<K(==,!new), V>(ps: seq<(K, V)>): (d: Dict<K, V>)
    ensures Valid(d)
    ensures forall k :: k in d.vals <==> exists i :: 0 <= i < |ps| && ps[i].0 == k
    ensures forall k :: k in d.vals ==> exists i :: LastAt(ps, k, i) && ps[i].1 == d.vals[k]
    ensures forall a, b, i, j :: 0 <= a < b < |d.order| && FirstAt(ps, d.order[a], i) && FirstAt(ps, d.order[b], j) ==> i < j
    decreases |ps|
  {
    if ps == [] then Empty()
    else
      var init := ps[..|ps| - 1];
      var (k, v) := ps[|ps| - 1];
      var d := FromPairs(init);
      var r := Put(d, k, v);
      assert init + [(k, v)] == ps;
      assert forall i :: 0 <= i < |init| ==> init[i] == ps[i];
      LastPairStep(init, k, v, d, r);
      FirstPairStep(init, k, v, d, r);
      r
  }
}

=== FILE: pystr.dfy ===
/** Python's `str.strip()` with no argument. */
module PyStr {

  /** The characters `str.isspace()` accepts, which `strip()` removes. */
  predicate IsSpace(c: char) {
    var n := c as int;
    || n == 0x20 || 0x09 <= n <= 0x0D       // space, \t \n \v \f \r
    || 0x1C <= n <= 0x1F                    // file, group, record, unit separators
    || n == 0x85 || n == 0xA0 || n == 0x1680
    || 0x2000 <= n <= 0x200A
    || n == 0x2028 || n == 0x2029 || n == 0x202F || n == 0x205F
    || n == 0x3000
  }

  predicate AllSpace(s: string) {
    forall i :: 0 <= i < |s| ==> IsSpace(s[i])
  }

  /** The number of whitespace characters `s` starts with. */
  function LeadingSpace(s: string): (n: nat)
    ensures n <= |s|
    ensures AllSpace(s[..n])
    ensures n < |s| ==> !IsSpace(s[n])
  {
    if s == [] || !IsSpace(s[0]) then 0 else 1 + LeadingSpace(s[1..])
  }

  /** Whitespace after an all-whitespace string keeps it all whitespace. */
  lemma AllSpaceSnoc(a: string, c: char)
    requires AllSpace(a) && IsSpace(c)
    ensures AllSpace(a + [c])
  {
    assert forall i :: 0 <= i < |a| ==> (a + [c])[i] == a[i];
  }

  /** The number of whitespace characters `s` ends with. */
  function TrailingSpace(s: string): (n: nat)
    ensures n <= |s|
    ensures AllSpace(s[|s| - n..])
    ensures n < |s| ==> !IsSpace(s[|s| - n - 1])
  {
    if s == [] || !IsSpace(s[|s| - 1]) then 0
    else
      var t := s[..|s| - 1];
      var m := TrailingSpace(t);
      assert s[|s| - 1 - m..] == t[|t| - m..] + [s[|s| - 1]];
      AllSpaceSnoc(t[|t| - m..], s[|s| - 1]);
      assert m < |t| ==> s[|s| - m - 2] == t[|t| - m - 1];
      1 + m
  }

  /** `s.strip()`: the longest middle part of `s` that neither starts nor
      ends with whitespace, with only whitespace cut off on either side. */
  function Strip(s: string): (r: string)
    ensures exists i, j :: 0 <= i <= j <= |s| && r == s[i..j] && AllSpace(s[..i]) && AllSpace(s[j..])
    ensures r != [] ==> !IsSpace(r[0]) && !IsSpace(r[|r| - 1])
  {
    var i := LeadingSpace(s);
    var j := |s| - TrailingSpace(s[i..]);
    assert s[j..] == s[i..][j - i..];
    s[i..j]
  }

  /** A stripped string is empty exactly when the input was all whitespace. */
  lemma StripEmptyIff(s: string)
    ensures Strip(s) == [] <==> AllSpace(s)
  {
    var i := LeadingSpace(s);
    if i == |s| {
      assert s[..i] == s;
    } else {
      var x := s[i..];
      var t := TrailingSpace(x);
      assert x[0] == s[i];
      assert |s| - t > i;
    }
  }

  /** Stripping twice is stripping once. */
  lemma StripIdempotent(s: string)
    ensures Strip(Strip(s)) == Strip(s)
  {
    var r := Strip(s);
    assert LeadingSpace(r) == 0;
    assert TrailingSpace(r) == 0;
  }
}

=== FILE: seqs.dfy ===
/** Order-preserving filtering of sequences: the model of a Python list
    comprehension `[x for x in xs if p(x)]`. */
module Seqs {

  /** The elements of `xs` that satisfy `p`, in their original order. */
  function Filter<T(!new)>(xs: seq<T>, p: T -> bool): (r: seq<T>)
    ensures |r| <= |xs|
    ensures forall x :: x in r <==> x in xs && p(x)
  {
    if xs == [] then []
    else if p(xs[0]) then [xs[0]] + Filter(xs[1..], p)
    else Filter(xs[1..], p)
  }

  /** Filtering distributes over concatenation, so the kept elements stay in
      their original relative order. */
  lemma {:induction false} FilterConcat<T(!new)>(a: seq<T>, b: seq<T>, p: T -> bool)
    ensures Filter(a + b, p) == Filter(a, p) + Filter(b, p)
  {
    if a == [] {
      assert a + b == b;
    } else {
      assert (a + b)[1..] == a[1..] + b;
      FilterConcat(a[1..], b, p);
    }
  }

  /** Filtering by a predicate every element satisfies changes nothing. */
  lemma {:induction false} FilterAll<T(!new)>(xs: seq<T>, p: T -> bool)
    requires forall x :: x in xs ==> p(x)
    ensures Filter(xs, p) == xs
  {
    if xs != [] {
      assert forall x :: x in xs[1..] ==> x in xs;
      FilterAll(xs[1..], p);
    }
  }

  /** Only the values a predicate takes on the elements matter. */
  lemma {:induction false} FilterCongruent<T(!new)>(xs: seq<T>, p: T -> bool, q: T -> bool)
    requires forall x :: x in xs ==> p(x) == q(x)
    ensures Filter(xs, p) == Filter(xs, q)
  {
    if xs != [] {
      assert forall x :: x in xs[1..] ==> x in xs;
      FilterCongruent(xs[1..], p, q);
    }
  }

  /** Two successive filters are one filter by the conjunction. */
  lemma {:induction false} FilterFilter<T(!new)>(xs: seq<T>, p: T -> bool, q: T -> bool, both: T -> bool)
    requires forall x :: both(x) == (p(x) && q(x))
    ensures Filter(Filter(xs, p), q) == Filter(xs, both)
  {
    if xs != [] {
      FilterFilter(xs[1..], p, q, both);
      if p(xs[0]) {
        assert Filter(xs, p) == [xs[0]] + Filter(xs[1..], p);
        assert ([xs[0]] + Filter(xs[1..], p))[1..] == Filter(xs[1..], p);
      }
    }
  }

  /** Every element is kept by exactly one of `p` and its negation. */
  lemma {:induction false} FilterSplit<T(!new)>(xs: seq<T>, p: T -> bool, notP: T -> bool)
    requires forall x :: notP(x) == !p(x)
    ensures |Filter(xs, p)| + |Filter(xs, notP)| == |xs|
  {
    if xs != [] {
      FilterSplit(xs[1..], p, notP);
    }
  }

  /** Filtering by a predicate no element satisfies leaves nothing. */
  lemma FilterNone<T(!new)>(xs: seq<T>, p: T -> bool)
    requires forall x :: x in xs ==> !p(x)
    ensures Filter(xs, p) == []
  {
  }

  /** Filtering out the one element that fails the test leaves the rest. */
  lemma FilterDropsOne<T(!new)>(a: seq<T>, x: T, b: seq<T>, p: T -> bool)
    requires !p(x)
    requires forall y :: y in a ==> p(y)
    requires forall y :: y in b ==> p(y)
    ensures Filter(a + [x] + b, p) == a + b
  {
    FilterConcat(a + [x], b, p);
    FilterConcat(a, [x], p);
    FilterAll(a, p);
    FilterAll(b, p);
    assert [x][1..] == [];
  }
}

=== FILE: simple_todo.dfy ===
/** The in-memory `TodoList` of the lab 2 API (lab2-doc/heziyuan-2300012806/app.py):
    a dictionary from id to task text with a counter that only grows, and the
    request checks its create, update and delete routes put in front of it. */
module SimpleTodo {
  import opened Wrappers
  import opened Json
  import opened PyStr
  import PyDict
  import Seqs

  datatype TodoList = TodoList(todos: PyDict.Dict<int, string>, counter: int)

  /** Ids in use are positive and below the counter. */
  ghost predicate Inv(l: TodoList) {
    && PyDict.Valid(l.todos)
    && l.counter >= 1
    && forall k :: k in l.todos.vals ==> 1 <= k < l.counter
  }

  /** `TodoList()`: no todos, and the first id to hand out is 1. */
  function Init(): (l: TodoList)
    ensures Inv(l)
    ensures PyDict.Size(l.todos) == 0 && l.counter == 1
  {
    TodoList(PyDict.Empty(), 1)
  }

  /** `add_item`: the text is stored under the current counter, the reply is
      `{"id": counter - 1, "task": task}` taken after the increment, which is
      the id just used. Under the invariant that id was free. */
  function AddItem(l: TodoList, task: string): (r: (TodoList, (int, string)))
    requires PyDict.Valid(l.todos)
    ensures r.1.0 == l.counter && r.1.1 == task
    ensures r.0.counter == l.counter + 1
    ensures PyDict.Get(r.0.todos, r.1.0) == Some(task)
    ensures forall k :: k != r.1.0 ==> PyDict.Get(r.0.todos, k) == PyDict.Get(l.todos, k)
    ensures PyDict.Valid(r.0.todos)
    ensures Inv(l) ==> Inv(r.0) && PyDict.Size(r.0.todos) == PyDict.Size(l.todos) + 1
  {
    var todos := PyDict.Put(l.todos, l.counter, task);
    var l' := TodoList(todos, l.counter + 1);
    (l', (l'.counter - 1, task))
  }

  /** `remove_item`: a present id yields its text and only that key goes;
      an absent id yields None and changes nothing. The counter stays. */
  function RemoveItem(l: TodoList, id: int): (r: (TodoList, Option<string>))
    requires PyDict.Valid(l.todos)
    ensures r.1 == PyDict.Get(l.todos, id)
    ensures r.1.None? ==> r.0 == l
    ensures r.1.Some? ==> id !in r.0.todos.vals
    ensures forall k :: k != id ==> PyDict.Get(r.0.todos, k) == PyDict.Get(l.todos, k)
    ensures r.0.todos.order == Seqs.Filter(l.todos.order, PyDict.Other(id))
    ensures r.0.counter == l.counter
    ensures PyDict.Valid(r.0.todos)
    ensures Inv(l) ==> Inv(r.0)
  {
    var (todos, task) := PyDict.Pop(l.todos, id);
    (TodoList(todos, l.counter), task)
  }

  /** Removing the id just handed out gives back its text and restores the
      dictionary; only the counter stays advanced. */
  lemma AddThenRemove(l: TodoList, task: string)
    requires Inv(l)
    ensures RemoveItem(AddItem(l, task).0, AddItem(l, task).1.0) == (l.(counter := l.counter + 1), Some(task))
  {
    PyDict.PutThenPop(l.todos, l.counter, task);
  }

  /** `get_items`: the dictionary itself. */
  function GetItems(l: TodoList): PyDict.Dict<int, string> {
    l.todos
  }

  /** `update_item`: a present id gets the new text, position and all other
      entries unchanged, and the reply `{id: task}`; an absent id yields None
      and changes nothing. */
  function UpdateItem(l: TodoList, id: int, task: string): (r: (TodoList, Option<(int, string)>))
    requires PyDict.Valid(l.todos)
    ensures r.1.None? <==> id !in l.todos.vals
    ensures r.1.None? ==> r.0 == l
    ensures r.1.Some? ==> r.1.value == (id, task) && PyDict.Get(GetItems(r.0), id) == Some(task)
    ensures r.1.Some? ==> r.0.todos.order == l.todos.order
    ensures forall k :: k != id ==> PyDict.Get(r.0.todos, k) == PyDict.Get(l.todos, k)
    ensures r.0.counter == l.counter
    ensures PyDict.Valid(r.0.todos)
    ensures Inv(l) ==> Inv(r.0)
  {
    if id in l.todos.vals then (TodoList(PyDict.Put(l.todos, id, task), l.counter), Some((id, task)))
    else (l, None)
  }

  /** A call on the store, for reasoning about sequences of calls. */
  datatype Op = AddOp(task: string) | RemoveOp(id: int) | UpdateOp(id: int, task: string)

  function Step(l: TodoList, op: Op): (l': TodoList)
    requires PyDict.Valid(l.todos)
    ensures PyDict.Valid(l'.todos)
  {
    match op
    case AddOp(task) => AddItem(l, task).0
    case RemoveOp(id) => RemoveItem(l, id).0
    case UpdateOp(id, task) => UpdateItem(l, id, task).0
  }

  function Run(l: TodoList, ops: seq<Op>): (l': TodoList)
    requires PyDict.Valid(l.todos)
    ensures PyDict.Valid(l'.todos)
    decreases |ops|
  {
    if ops == [] then l else Step(Run(l, ops[..|ops| - 1]), ops[|ops| - 1])
  }

  /** The ids the `add_item` calls of `ops` hand out, in call order. */
  function IssuedIds(l: TodoList, ops: seq<Op>): seq<int>
    requires PyDict.Valid(l.todos)
    decreases |ops|
  {
    if ops == [] then []
    else
      var before := Run(l, ops[..|ops| - 1]);
      var earlier := IssuedIds(l, ops[..|ops| - 1]);
      match ops[|ops| - 1]
      case AddOp(task) => earlier + [AddItem(before, task).1.0]
      case _ => earlier
  }

  /** Over any sequence of calls the counter only grows, the invariant is
      kept, and the ids handed out are consecutive from the starting counter:
      strictly increasing and never one that was in use at the start. */
  lemma {:induction false} IdsNeverReused(l: TodoList, ops: seq<Op>)
    requires Inv(l)
    ensures Inv(Run(l, ops))
    ensures Run(l, ops).counter == l.counter + |IssuedIds(l, ops)|
    ensures forall i :: 0 <= i < |IssuedIds(l, ops)| ==> IssuedIds(l, ops)[i] == l.counter + i
    ensures forall i, j :: 0 <= i < j < |IssuedIds(l, ops)| ==> IssuedIds(l, ops)[i] < IssuedIds(l, ops)[j]
    ensures forall i :: 0 <= i < |IssuedIds(l, ops)| ==> IssuedIds(l, ops)[i] !in l.todos.vals
    decreases |ops|
  {
    if ops != [] {
      IdsNeverReused(l, ops[..|ops| - 1]);
    }
  }

  /** The replies of the route handlers, with their HTTP status codes. */
  datatype Reply =
    | Created(todo: (int, string))
    | Updated(todo: (int, string))
    | Deleted(task: string)
    | MissingTask
    | BlankTask
    | NotFound(id: int)
    | ServerError

  /** Replies 201 and 200 are the successes; the 400s reject the body, 404
      an unknown id, and 500 a handler that raised. */
  function Status(r: Reply): (code: int)
    ensures code < 300 <==> r.Created? || r.Updated? || r.Deleted?
    ensures code == 400 <==> r == MissingTask || r == BlankTask
    ensures code == 404 <==> r.NotFound?
    ensures code == 500 <==> r == ServerError
  {
    match r
    case Created(_) => 201
    case Updated(_) => 200
    case Deleted(_) => 200
    case MissingTask => 400
    case BlankTask => 400
    case NotFound(_) => 404
    case ServerError => 500
  }

  /** `needle in haystack` on two strings. */
  predicate Contains(haystack: string, needle: string) {
    exists i :: 0 <= i <= |haystack| && needle <= haystack[i..]
  }

  /** The task check shared by `add_todo` and `update_todo`, on the decoded
      body: a falsy body or one without `task` is a missing task; a `task`
      that is not a string fails in `strip()` and ends as a server error;
      otherwise the stripped text must not be empty. On a list or string
      body `'task' in data` is a membership or substring test, and indexing
      such a body with `'task'` raises; on a number or `true` the `in` test
      itself raises. */
  function ReadTask(body: Json): (r: Result<string, Reply>)
    ensures r.Ok? ==> r.value != [] && Strip(r.value) == r.value
    ensures r.Err? ==> r.error in {MissingTask, BlankTask, ServerError}
    ensures !Truthy(body) ==> r == Err(MissingTask)
    ensures body.Obj? && "task" !in body.fields ==> r == Err(MissingTask)
    ensures body.Obj? && "task" in body.fields && body.fields["task"].Str? ==>
      (r.Ok? <==> !AllSpace(body.fields["task"].s)) && (r.Ok? ==> r.value == Strip(body.fields["task"].s))
    ensures body.Obj? && "task" in body.fields && body.fields["task"].Str? && AllSpace(body.fields["task"].s) ==>
      r == Err(BlankTask)
    ensures body.Obj? && "task" in body.fields && !body.fields["task"].Str? ==> r == Err(ServerError)
    ensures body.Arr? ==> (r == Err(ServerError) <==> Str("task") in body.items) && (r == Err(MissingTask) <==> Str("task") !in body.items)
    ensures body.Str? ==> (r == Err(ServerError) <==> Contains(body.s, "task")) && (r == Err(MissingTask) <==> !Contains(body.s, "task"))
    ensures (body.Num? || body.Bool?) && Truthy(body) ==> r == Err(ServerError)
    ensures r.Ok? ==> body.Obj? && "task" in body.fields && body.fields["task"].Str?
  {
    if !Truthy(body) then Err(MissingTask)
    else
      match body
      case Obj(fields) =>
        if "task" !in fields then Err(MissingTask)
        else (
          match fields["task"]
          case Str(s) =>
            StripEmptyIff(s);
            StripIdempotent(s);
            var task := Strip(s);
            if task == [] then Err(BlankTask) else Ok(task)
          case _ => Err(ServerError))
      case Arr(xs) => if Str("task") in xs then Err(ServerError) else Err(MissingTask)
      case Str(s) => if Contains(s, "task") then Err(ServerError) else Err(MissingTask)
      case _ => Err(ServerError)
  }

  /** `POST /todos`: a rejected body leaves the store unchanged; an accepted
      one adds the stripped, non-empty text under the next id. */
  function CreateTodo(l: TodoList, body: Json): (r: (TodoList, Reply))
    requires PyDict.Valid(l.todos)
    ensures r.1.Created? || r.1 in {MissingTask, BlankTask, ServerError}
    ensures ReadTask(body).Err? ==> r.1 == ReadTask(body).error && r.0 == l
    ensures ReadTask(body).Ok? ==> r.1.Created?
    ensures !r.1.Created? ==> r.0 == l
    ensures forall k :: k != l.counter ==> PyDict.Get(r.0.todos, k) == PyDict.Get(l.todos, k)
    ensures r.1.Created? ==>
      && ReadTask(body) == Ok(r.1.todo.1)
      && r.1.todo.1 != []
      && r.1.todo.0 == l.counter
      && r.0.counter == l.counter + 1
      && PyDict.Get(r.0.todos, r.1.todo.0) == Some(r.1.todo.1)
    ensures Inv(l) ==> Inv(r.0)
  {
    match ReadTask(body)
    case Err(reply) => (l, reply)
    case Ok(task) =>
      var (l', todo) := AddItem(l, task);
      (l', Created(todo))
  }

  /** `PUT /todos/<id>`: a missing or blank task is rejected before the store
      is consulted; a valid task for an absent id is "not found"; both leave
      the store unchanged. Otherwise the stripped text replaces the entry. */
  function UpdateTodo(l: TodoList, id: int, body: Json): (r: (TodoList, Reply))
    requires PyDict.Valid(l.todos)
    ensures !r.1.Updated? ==> r.0 == l
    ensures ReadTask(body).Err? ==> r.1 == ReadTask(body).error
    ensures ReadTask(body).Ok? ==> (r.1 == NotFound(id) <==> id !in l.todos.vals)
    ensures ReadTask(body).Ok? && id in l.todos.vals ==> r.1.Updated?
    ensures r.0.todos.order == l.todos.order && r.0.counter == l.counter
    ensures r.1.Updated? ==>
      && ReadTask(body) == Ok(r.1.todo.1)
      && r.1.todo.0 == id
      && PyDict.Get(r.0.todos, id) == Some(r.1.todo.1)
      && forall k :: k != id ==> PyDict.Get(r.0.todos, k) == PyDict.Get(l.todos, k)
    ensures Inv(l) ==> Inv(r.0)
  {
    match ReadTask(body)
    case Err(reply) => (l, reply)
    case Ok(task) =>
      match UpdateItem(l, id, task)
      case (_, None) => (l, NotFound(id))
      case (l', Some(todo)) => (l', Updated(todo))
  }

  /** `DELETE /todos/<id>`: the removed text, or "not found" with no change. */
  function DeleteTodo(l: TodoList, id: int): (r: (TodoList, Reply))
    requires PyDict.Valid(l.todos)
    ensures r.1.Deleted? || r.1 == NotFound(id)
    ensures r.1 == NotFound(id) <==> id !in l.todos.vals
    ensures r.1 == NotFound(id) ==> r.0 == l
    ensures r.1.Deleted? ==> PyDict.Get(l.todos, id) == Some(r.1.task) && id !in r.0.todos.vals
    ensures forall k :: k != id ==> PyDict.Get(r.0.todos, k) == PyDict.Get(l.todos, k)
    ensures r.0.counter == l.counter
    ensures Inv(l) ==> Inv(r.0)
  {
    match RemoveItem(l, id)
    case (_, None) => (l, NotFound(id))
    case (l', Some(task)) => (l', Deleted(task))
  }
}

=== FILE: task_log.dfy ===
/** The JSON task log of the lab 3 SQLite back end
    (lab3-doc/heziyuan-2300012806/project/app.py): `load_task_log` reads the
    file either as a plain list of task dicts or as an append-only action log
    that it replays into a by-id map; `append_task_log` and `delete_todo`
    rewrite the list. The file read is abstracted as an optional parsed value
    (None for a missing, unreadable or unparsable file), the write is not
    modelled. An exception the Python code raises is an `Err`. */
module TaskLog {
  import opened Wrappers
  import opened Json
  import opened Seqs
  import PyDict

  /** The exceptions a malformed file makes the code raise. */
  datatype Crash =
    | NotADict     // AttributeError: `.get` called on something that is not a dict
    | Unhashable   // TypeError: a list or dict used as a dict key

  /** What one action-log entry does during replay. */
  datatype Effect = Skip | Write(key: Key, task: Json) | Erase(key: Key) | Fail(crash: Crash)

  /** One iteration of the replay loop: entries without a dict `task` or
      with a missing or null id are skipped; `add` and `update` store the
      task under its id, `delete` drops the id, any other action is ignored. */
  function EffectOf(entry: Json): (e: Effect)
    ensures e.Fail? <==>
      || !entry.Obj?
      || (&& Field(entry.fields, "task").Obj?
          && Field(entry.fields, "action") in {Str("add"), Str("update"), Str("delete")}
          && KeyOf(Field(Field(entry.fields, "task").fields, "id")).None?)
    ensures entry.Obj? && (!Field(entry.fields, "task").Obj? || Field(Field(entry.fields, "task").fields, "id").Null?) ==> e.Skip?
    ensures entry.Obj? && Field(entry.fields, "action") !in {Str("add"), Str("update"), Str("delete")} ==> e.Skip?
    ensures e.Write? ==> Field(entry.fields, "action") in {Str("add"), Str("update")} && e.task == Field(entry.fields, "task")
    ensures e.Erase? ==> Field(entry.fields, "action") == Str("delete")
    ensures e.Write? ==> e.task.Obj? && KeyOf(Field(e.task.fields, "id")) == Some(e.key)
    ensures e.Erase? ==> KeyOf(Field(Field(entry.fields, "task").fields, "id")) == Some(e.key)
    ensures entry.Obj? ==>
      var action := Field(entry.fields, "action");
      var task := Field(entry.fields, "task");
      task.Obj? && !Field(task.fields, "id").Null? && KeyOf(Field(task.fields, "id")).Some? ==>
        && (action in {Str("add"), Str("update")} ==> e == Write(KeyOf(Field(task.fields, "id")).value, task))
        && (action == Str("delete") ==> e == Erase(KeyOf(Field(task.fields, "id")).value))
  {
    if !entry.Obj? then Fail(NotADict)
    else
      var action := Field(entry.fields, "action");
      var task := Field(entry.fields, "task");
      if !task.Obj? then Skip
      else
        var tid := Field(task.fields, "id");
        if tid.Null? then Skip
        else if action == Str("add") || action == Str("update") then
          match KeyOf(tid)
          case None => Fail(Unhashable)
          case Some(k) => Write(k, task)
        else if action == Str("delete") then
          match KeyOf(tid)
          case None => Fail(Unhashable)
          case Some(k) => Erase(k)
        else Skip
  }

  /** Every stored task is a dict stored under the key of its own id. */
  ghost predicate KeyedById(d: PyDict.Dict<Key, Json>) {
    forall k :: k in d.vals ==> d.vals[k].Obj? && KeyOf(Field(d.vals[k].fields, "id")) == Some(k)
  }

  /** A write stores a dict under the key of its own id. */
  ghost predicate WellKeyed(e: Effect) {
    e.Write? ==> e.task.Obj? && KeyOf(Field(e.task.fields, "id")) == Some(e.key)
  }

  /** `tasks_by_id[tid] = task` or `tasks_by_id.pop(tid, None)`. Skipped
      entries and deletes of an absent id leave the map as it is. */
  function Apply(d: PyDict.Dict<Key, Json>, e: Effect): (r: Result<PyDict.Dict<Key, Json>, Crash>)
    requires PyDict.Valid(d)
    ensures r.Err? <==> e.Fail?
    ensures r.Ok? ==> PyDict.Valid(r.value)
    ensures r.Ok? && KeyedById(d) && WellKeyed(e) ==> KeyedById(r.value)
    ensures e.Skip? || (e.Erase? && e.key !in d.vals) ==> r == Ok(d)
    ensures e.Write? ==> r.Ok? && PyDict.Get(r.value, e.key) == Some(e.task)
    ensures e.Erase? ==> r.Ok? && e.key !in r.value.vals
    ensures r.Ok? && (e.Write? || e.Erase?) ==> forall k :: k != e.key ==> PyDict.Get(r.value, k) == PyDict.Get(d, k)
  {
    match e
    case Skip => Ok(d)
    case Write(k, task) => Ok(PyDict.Put(d, k, task))
    case Erase(k) => Ok(PyDict.Pop(d, k).0)
    case Fail(c) => Err(c)
  }

  /** The replay loop over the whole log; the first failing entry ends it. */
  function ReplayMap(entries: seq<Json>): (r: Result<PyDict.Dict<Key, Json>, Crash>)
    ensures r.Ok? ==> PyDict.Valid(r.value) && KeyedById(r.value)
    decreases |entries|
  {
    if entries == [] then Ok(PyDict.Empty())
    else
      var prefix := entries[..|entries| - 1];
      var last := entries[|entries| - 1];
      match ReplayMap(prefix)
      case Err(c) => Err(c)
      case Ok(d) => Apply(d, EffectOf(last))
  }

  /** The replay raises exactly when some entry makes it raise. */
  lemma {:induction false} ReplayFailsIff(entries: seq<Json>)
    ensures ReplayMap(entries).Err? <==> exists i :: 0 <= i < |entries| && EffectOf(entries[i]).Fail?
    decreases |entries|
  {
    if entries != [] {
      var prefix := entries[..|entries| - 1];
      assert forall i :: 0 <= i < |prefix| ==> prefix[i] == entries[i];
      ReplayFailsIff(prefix);
    }
  }

  /** `list(tasks_by_id.values())` after the replay: the stored tasks, in the
      insertion order of the replayed dict. */
  function Replay(entries: seq<Json>): (r: Result<seq<Json>, Crash>)
    ensures r.Err? <==> exists i :: 0 <= i < |entries| && EffectOf(entries[i]).Fail?
    ensures r.Ok? <==> ReplayMap(entries).Ok?
    ensures r.Ok? ==> |r.value| == PyDict.Size(ReplayMap(entries).value)
    ensures r.Ok? ==> forall i :: 0 <= i < |r.value| ==>
      && r.value[i] == ReplayMap(entries).value.vals[ReplayMap(entries).value.order[i]]
      && r.value[i].Obj? && KeyOf(Field(r.value[i].fields, "id")) == Some(ReplayMap(entries).value.order[i])
  {
    ReplayFailsIff(entries);
    match ReplayMap(entries)
    case Err(c) => Err(c)
    case Ok(d) => Ok(PyDict.Values(d))
  }

  /** The first element decides the format: a dict with both `action` and
      `task` keys marks an action log. */
  predicate IsLogEntry(v: Json) {
    v.Obj? && "action" in v.fields && "task" in v.fields
  }

  /** `load_task_log` on the parsed file contents. */
  function LoadTaskLog(file: Option<Json>): (r: Result<seq<Json>, Crash>)
    ensures file.None? || !file.value.Arr? || file.value.items == [] ==> r == Ok([])
    ensures file.Some? && file.value.Arr? && file.value.items != [] && !IsLogEntry(file.value.items[0]) ==>
      r == Ok(file.value.items)
    ensures file.Some? && file.value.Arr? && file.value.items != [] && IsLogEntry(file.value.items[0]) ==>
      r == Replay(file.value.items)
  {
    match file
    case None => Ok([])
    case Some(data) =>
      if !data.Arr? || data.items == [] then Ok([])
      else if IsLogEntry(data.items[0]) then Replay(data.items)
      else Ok(data.items)
  }

  /** Whether an entry adds, updates or deletes the task with key `k`. */
  predicate Touches(entry: Json, k: Key) {
    match EffectOf(entry)
    case Write(k', _) => k' == k
    case Erase(k') => k' == k
    case _ => false
  }

  /** Entry `i` is an add or update of key `k` that no later entry touches. */
  ghost predicate LastWriteAt(entries: seq<Json>, k: Key, i: int) {
    && 0 <= i < |entries|
    && EffectOf(entries[i]).Write?
    && EffectOf(entries[i]).key == k
    && forall j :: i < j < |entries| ==> !Touches(entries[j], k)
  }

  /** What `ReplayKeepsLastWrite` states about one log and key. */
  ghost predicate KeepsLastWrite(entries: seq<Json>, k: Key)
    requires ReplayMap(entries).Ok?
  {
    && (k in ReplayMap(entries).value.vals <==> exists i :: LastWriteAt(entries, k, i))
    && forall i :: LastWriteAt(entries, k, i) ==> ReplayMap(entries).value.vals[k] == EffectOf(entries[i]).task
  }

  /** The step for a last entry that adds, updates or deletes the key. */
  lemma LastEntryTouches(entries: seq<Json>, k: Key)
    requires entries != [] && ReplayMap(entries).Ok? && Touches(entries[|entries| - 1], k)
    ensures KeepsLastWrite(entries, k)
  {
    var n := |entries|;
    var e := EffectOf(entries[n - 1]);
    var d := ReplayMap(entries[..n - 1]).value;
    assert Apply(d, e) == ReplayMap(entries);
    assert forall i :: LastWriteAt(entries, k, i) ==> i == n - 1;
    if e.Write? {
      assert LastWriteAt(entries, k, n - 1);
    }
  }

  /** An entry about another key changes nothing for `k`. */
  lemma ApplyElsewhere(d: PyDict.Dict<Key, Json>, e: Effect, k: Key)
    requires PyDict.Valid(d) && !e.Fail? && (e.Write? || e.Erase? ==> e.key != k)
    ensures k in Apply(d, e).value.vals <==> k in d.vals
    ensures k in d.vals ==> Apply(d, e).value.vals[k] == d.vals[k]
  {
  }

  /** A last entry that does not touch `k` leaves its last write where it was. */
  lemma LastWriteElsewhere(entries: seq<Json>, k: Key)
    requires entries != [] && !Touches(entries[|entries| - 1], k)
    ensures forall i :: LastWriteAt(entries, k, i) <==> LastWriteAt(entries[..|entries| - 1], k, i)
  {
    var prefix := entries[..|entries| - 1];
    assert forall i :: 0 <= i < |prefix| ==> prefix[i] == entries[i];
  }

  /** The step for a last entry about another key, or none. */
  lemma LastEntryElsewhere(entries: seq<Json>, k: Key)
    requires entries != [] && ReplayMap(entries).Ok? && !Touches(entries[|entries| - 1], k)
    requires ReplayMap(entries[..|entries| - 1]).Ok? && KeepsLastWrite(entries[..|entries| - 1], k)
    ensures KeepsLastWrite(entries, k)
  {
    var n := |entries|;
    var prefix := entries[..n - 1];
    var e := EffectOf(entries[n - 1]);
    var d := ReplayMap(prefix).value;
    assert Apply(d, e) == ReplayMap(entries);
    ApplyElsewhere(d, e, k);
    LastWriteElsewhere(entries, k);
    if k in d.vals {
      var i :| LastWriteAt(prefix, k, i);
      assert LastWriteAt(entries, k, i);
    }
  }

  /** After replay an id is present exactly when its last add, update or
      delete was an add or update, and it maps to that entry's task. */
  lemma {:induction false} ReplayKeepsLastWrite(entries: seq<Json>, k: Key)
    requires ReplayMap(entries).Ok?
    ensures k in ReplayMap(entries).value.vals <==> exists i :: LastWriteAt(entries, k, i)
    ensures forall i :: LastWriteAt(entries, k, i) ==> ReplayMap(entries).value.vals[k] == EffectOf(entries[i]).task
    decreases |entries|
  {
    if entries != [] {
      var n := |entries|;
      if Touches(entries[n - 1], k) {
        LastEntryTouches(entries, k);
      } else {
        ReplayKeepsLastWrite(entries[..n - 1], k);
        LastEntryElsewhere(entries, k);
      }
    }
  }

  /** An entry the replay skips can be left out without changing the result. */
  lemma {:induction false} SkippedEntryIsInvisible(before: seq<Json>, entry: Json, after: seq<Json>)
    requires EffectOf(entry).Skip?
    ensures ReplayMap(before + [entry] + after) == ReplayMap(before + after)
    decreases |after|
  {
    if after == [] {
      var es := before + [entry];
      assert es[..|es| - 1] == before && es[|es| - 1] == entry;
      assert before + [entry] + after == es;
      assert before + after == before;
    } else {
      var n := |after|;
      var es := before + [entry] + after;
      var fs := before + after;
      assert es[..|es| - 1] == before + [entry] + after[..n - 1];
      assert fs[..|fs| - 1] == before + after[..n - 1];
      assert es[|es| - 1] == fs[|fs| - 1];
      SkippedEntryIsInvisible(before, entry, after[..n - 1]);
    }
  }

  /** Once replayed, no two tasks share an id. */
  lemma ReplayIdsUnique(entries: seq<Json>)
    requires Replay(entries).Ok?
    ensures forall t :: t in Replay(entries).value ==> t.Obj? && KeyOf(Field(t.fields, "id")).Some?
    ensures forall i, j :: 0 <= i < j < |Replay(entries).value| ==>
      KeyOf(Field(Replay(entries).value[i].fields, "id")) != KeyOf(Field(Replay(entries).value[j].fields, "id"))
  {
    var d := ReplayMap(entries).value;
    var ts := Replay(entries).value;
    assert forall i :: 0 <= i < |ts| ==> d.order[i] in d.vals && ts[i] == d.vals[d.order[i]];
  }

  /** The list `load_task_log` returns keeps the last write too: it holds a
      task with key `k` exactly when the last add, update or delete of `k`
      was an add or update, and that task is the one the entry carried. */
  lemma ReplayListKeepsLastWrite(entries: seq<Json>, k: Key)
    requires Replay(entries).Ok?
    ensures (exists j :: 0 <= j < |Replay(entries).value| && KeyOf(Field(Replay(entries).value[j].fields, "id")) == Some(k))
        <==> exists i :: LastWriteAt(entries, k, i)
    ensures forall i, j ::
      && LastWriteAt(entries, k, i)
      && 0 <= j < |Replay(entries).value|
      && KeyOf(Field(Replay(entries).value[j].fields, "id")) == Some(k)
      ==> Replay(entries).value[j] == EffectOf(entries[i]).task
  {
    var d := ReplayMap(entries).value;
    var ts := Replay(entries).value;
    ReplayKeepsLastWrite(entries, k);
    if k in d.vals {
      var j := PyDict.IndexOf(d.order, k);
      assert KeyOf(Field(ts[j].fields, "id")) == Some(k);
    }
  }

  /** `t.get('id')`, `None` when absent. */
  function IdOf(t: Json): Json
    requires t.Obj?
  {
    Field(t.fields, "id")
  }

  /** Whether a task is a dict whose id equals `id`. */
  function HasId(id: Json): (p: Json -> bool)
  {
    (t: Json) => t.Obj? && PyEq(Field(t.fields, "id"), id)
  }

  /** The comprehension's condition `t.get('id') != id`, for a dict `t`. */
  function KeepOther(id: Json): (p: Json -> bool)
  {
    (t: Json) => !(t.Obj? && PyEq(Field(t.fields, "id"), id))
  }

  /** `[t for t in tasks if t.get('id') != id]`: raises on an element that is
      not a dict, otherwise keeps, in order, exactly the tasks with a
      different id. */
  function DropId(tasks: seq<Json>, id: Json): (r: Result<seq<Json>, Crash>)
    ensures r.Ok? <==> forall t :: t in tasks ==> t.Obj?
    ensures r.Ok? ==> forall t :: t in r.value <==> t in tasks && !PyEq(IdOf(t), id)
    ensures r.Ok? ==> r.value == Filter(tasks, KeepOther(id))
  {
    if forall t :: t in tasks ==> t.Obj? then Ok(Filter(tasks, KeepOther(id))) else Err(NotADict)
  }

  /** Dropping an id from two lists in turn is dropping it from their
      concatenation: the kept tasks stay in their original order. */
  lemma DropIdConcat(a: seq<Json>, b: seq<Json>, id: Json)
    requires DropId(a + b, id).Ok?
    ensures DropId(a, id).Ok? && DropId(b, id).Ok?
    ensures DropId(a + b, id).value == DropId(a, id).value + DropId(b, id).value
  {
    assert forall t :: t in a || t in b ==> t in a + b;
    FilterConcat(a, b, KeepOther(id));
  }

  /** The tasks of `ts` whose id equals `id`. */
  function WithId(ts: seq<Json>, id: Json): seq<Json> {
    Filter(ts, HasId(id))
  }

  /** `append_task_log(action, task)`, giving the list it writes back. `add`
      appends without looking for duplicates and so grows the list by
      exactly one; every other action first filters the list by id, which
      raises on an element that is not a dict, and on a `task` that is not a
      dict unless there is nothing to filter. */
  function AppendTaskLog(file: Option<Json>, action: string, task: Json): (r: Result<seq<Json>, Crash>)
    ensures LoadTaskLog(file).Err? ==> r == Err(LoadTaskLog(file).error)
    ensures LoadTaskLog(file).Ok? && action == "add" ==>
      var tasks := LoadTaskLog(file).value;
      r.Ok? && |r.value| == |tasks| + 1 && r.value[..|tasks|] == tasks && r.value[|tasks|] == task
    ensures LoadTaskLog(file).Ok? && action != "add" && task.Obj? ==>
      (r.Ok? <==> forall t :: t in LoadTaskLog(file).value ==> t.Obj?)
    ensures LoadTaskLog(file).Ok? && action != "add" && !task.Obj? ==>
      (r.Ok? <==> LoadTaskLog(file).value == [])
  {
    var tasks :- LoadTaskLog(file);
    if action == "add" then Ok(tasks + [task])
    else
      var kept :-
        if task.Obj? then DropId(tasks, IdOf(task))
        else if tasks == [] then Ok([])
        else Err(NotADict);
      if action == "delete" then Ok(kept) else Ok(kept + [task])
  }

  /** A `delete` keeps, in their original order, exactly the loaded tasks
      whose id differs from the task's. */
  lemma AppendDeleteDrops(file: Option<Json>, task: Json)
    requires task.Obj? && AppendTaskLog(file, "delete", task).Ok?
    ensures forall t :: t in AppendTaskLog(file, "delete", task).value <==>
      t in LoadTaskLog(file).value && !PyEq(IdOf(t), IdOf(task))
    ensures AppendTaskLog(file, "delete", task).value == Filter(LoadTaskLog(file).value, KeepOther(IdOf(task)))
  {
  }

  /** Any other action is an upsert: the delete of that id followed by an
      append, so the task ends up last and the only one with its id. */
  lemma AppendUpsertReplaces(file: Option<Json>, action: string, task: Json)
    requires task.Obj? && action != "add" && action != "delete"
    requires AppendTaskLog(file, action, task).Ok?
    ensures AppendTaskLog(file, "delete", task).Ok?
    ensures AppendTaskLog(file, action, task).value == AppendTaskLog(file, "delete", task).value + [task]
    ensures WithId(AppendTaskLog(file, action, task).value, IdOf(task)) == [task]
  {
    var kept := AppendTaskLog(file, "delete", task).value;
    FilterConcat(kept, [task], HasId(IdOf(task)));
    FilterNone(kept, HasId(IdOf(task)));
  }

  /** The log rewrite of `delete_todo` for the id of a row it found (the
      database read is not modelled: `rowFound` says whether the row was
      there). None means the file is left as it was, because there was no
      row or because the rewrite raised and the exception was swallowed;
      otherwise the new list has no task with that id and keeps the rest. */
  function DeleteTodoLog(file: Option<Json>, rowFound: bool, todoId: int): (r: Option<seq<Json>>)
    ensures r.Some? <==> rowFound && LoadTaskLog(file).Ok? && forall t :: t in LoadTaskLog(file).value ==> t.Obj?
    ensures r.Some? ==> forall t :: t in r.value <==> t in LoadTaskLog(file).value && !PyEq(IdOf(t), Num(todoId))
    ensures r.Some? ==> r.value == Filter(LoadTaskLog(file).value, KeepOther(Num(todoId)))
  {
    if !rowFound then None
    else
      match LoadTaskLog(file)
      case Err(_) => None
      case Ok(tasks) =>
        match DropId(tasks, Num(todoId))
        case Err(_) => None
        case Ok(kept) => Some(kept)
  }

  /** A list written back reads back unchanged, unless its first task itself
      looks like an action-log entry. */
  lemma SavedListReloads(tasks: seq<Json>)
    requires tasks == [] || !IsLogEntry(tasks[0])
    ensures LoadTaskLog(Some(Arr(tasks))) == Ok(tasks)
  {
  }
}

=== FILE: todo_store.dfy ===
/** The file-backed `TodoList` of the lab 3 reference project
    (lab3-doc/project/models.py): an insertion-ordered dictionary from id to
    task record, plus the counter that allocates the next id. Reading and
    writing `database.json` is abstracted: the decoded file is an input of
    `Load`, and saving is not modelled. */
module TodoStore {
  import opened Wrappers
  import opened Json
  import opened Seqs
  import PyDict

  /** One stored record: `{"id", "task", "completed", "priority", "category"}`. */
  datatype Item = Item(id: int, task: string, completed: bool, priority: string, category: string)

  datatype Store = Store(todos: PyDict.Dict<int, Item>, counter: int)

  /** The decoded `database.json`: the `todos` object with its keys already
      converted by `int(k)`, in file order, and the `counter` field if present. */
  datatype StoredFile = StoredFile(todos: seq<(int, Item)>, counter: Option<int>)

  /** The completion summary of `progress`; the percentage is exact. */
  datatype Progress = Progress(total: nat, completed: nat, percent: real)

  /** The dictionary is a well-formed Python dict. */
  ghost predicate WellFormed(s: Store) {
    PyDict.Valid(s.todos)
  }

  /** The counter lies above every id in use, so the next id is fresh. */
  ghost predicate CounterAbove(s: Store) {
    forall k :: k in s.todos.vals ==> k < s.counter
  }

  /** Every record is stored under its own id. */
  ghost predicate IdsMatch(s: Store) {
    forall k :: k in s.todos.vals ==> s.todos.vals[k].id == k
  }

  ghost predicate Inv(s: Store) {
    WellFormed(s) && CounterAbove(s) && IdsMatch(s)
  }

  function MaxKey(ks: seq<int>): (m: int)
    requires ks != []
    ensures m in ks
    ensures forall k :: k in ks ==> k <= m
  {
    if |ks| == 1 then ks[0]
    else
      var m := MaxKey(ks[1..]);
      assert forall k :: k in ks ==> k == ks[0] || k in ks[1..];
      if ks[0] > m then ks[0] else m
  }

  /** `_load`: a missing file gives an empty store with counter 1. A file
      gives its todos, each key holding its last record in the file and the
      keys in the order they first appear there. The stored counter is taken
      as it is; only when the file has none is it one above the largest id,
      or 1 for no todos. */
  function Load(file: Option<StoredFile>): (s: Store)
    ensures WellFormed(s)
    ensures file.None? ==> s.todos.order == [] && s.counter == 1
    ensures file.Some? ==> forall k :: k in s.todos.vals <==> exists i :: 0 <= i < |file.value.todos| && file.value.todos[i].0 == k
    ensures file.Some? ==> forall k :: k in s.todos.vals ==>
      exists i :: PyDict.LastAt(file.value.todos, k, i) && file.value.todos[i].1 == s.todos.vals[k]
    ensures file.Some? ==> forall a, b, i, j ::
      && 0 <= a < b < |s.todos.order|
      && PyDict.FirstAt(file.value.todos, s.todos.order[a], i)
      && PyDict.FirstAt(file.value.todos, s.todos.order[b], j)
      ==> i < j
    ensures file.Some? && file.value.counter.Some? ==> s.counter == file.value.counter.value
    ensures file.Some? && file.value.counter.None? ==>
      && CounterAbove(s)
      && (s.todos.vals == map[] ==> s.counter == 1)
      && (s.todos.vals != map[] ==> s.counter - 1 in s.todos.vals)
  {
    match file
    case None => Store(PyDict.Empty(), 1)
    case Some(f) =>
      var todos := PyDict.FromPairs(f.todos);
      var counter :=
        match f.counter
        case Some(c) => c
        case None => if PyDict.Size(todos) > 0 then MaxKey(todos.order) + 1 else 1;
      Store(todos, counter)
  }

  /** A file whose records all carry the id they are stored under, and whose
      stored counter, if any, lies above every id (as `_save` writes it), loads
      into a store satisfying the invariant. */
  lemma LoadEstablishesInv(file: Option<StoredFile>)
    requires file.Some? && file.value.counter.Some? ==>
      forall i :: 0 <= i < |file.value.todos| ==> file.value.todos[i].0 < file.value.counter.value
    requires file.Some? ==> forall i :: 0 <= i < |file.value.todos| ==> file.value.todos[i].1.id == file.value.todos[i].0
    ensures Inv(Load(file))
  {
    if file.Some? {
      var s := Load(file);
      var ps := file.value.todos;
      forall k | k in s.todos.vals
        ensures s.todos.vals[k].id == k && k < s.counter
      {
        var i :| PyDict.LastAt(ps, k, i) && ps[i].1 == s.todos.vals[k];
      }
    }
  }

  /** `add_item`: the new record takes the current counter as its id and
      starts not completed; the counter moves on by one. Under the invariant
      the id is fresh, so nothing is overwritten and the record goes last. */
  function Add(s: Store, task: string, priority: string := "normal", category: string := "default"): (r: (Store, Item))
    requires WellFormed(s)
    ensures r.1.id == s.counter && r.1.task == task && !r.1.completed
    ensures r.1.priority == priority && r.1.category == category
    ensures r.0.counter == s.counter + 1
    ensures PyDict.Get(r.0.todos, s.counter) == Some(r.1)
    ensures forall k :: k != s.counter ==> PyDict.Get(r.0.todos, k) == PyDict.Get(s.todos, k)
    ensures WellFormed(r.0)
    ensures Inv(s) ==> Inv(r.0) && r.0.todos.order == s.todos.order + [s.counter]
  {
    var item := Item(s.counter, task, false, priority, category);
    (Store(PyDict.Put(s.todos, s.counter, item), s.counter + 1), item)
  }

  /** `remove_item`: a present id yields its record and loses only that
      entry; an absent id yields None and leaves the store as it was. The
      counter never goes back, so a removed id is not handed out again. */
  function Remove(s: Store, id: int): (r: (Store, Option<Item>))
    requires WellFormed(s)
    ensures r.1 == PyDict.Get(s.todos, id)
    ensures r.1.None? ==> r.0 == s
    ensures r.1.Some? ==> id !in r.0.todos.vals && PyDict.Size(r.0.todos) + 1 == PyDict.Size(s.todos)
    ensures forall k :: k != id ==> PyDict.Get(r.0.todos, k) == PyDict.Get(s.todos, k)
    ensures r.0.todos.order == Filter(s.todos.order, PyDict.Other(id))
    ensures r.0.counter == s.counter
    ensures WellFormed(r.0)
    ensures Inv(s) ==> Inv(r.0)
  {
    var (todos, item) := PyDict.Pop(s.todos, id);
    (Store(todos, s.counter), item)
  }

  /** Removing the record just added restores the store, apart from the
      counter, which stays advanced. */
  lemma AddThenRemove(s: Store, task: string, priority: string, category: string)
    requires Inv(s)
    ensures Remove(Add(s, task, priority, category).0, s.counter).0 == s.(counter := s.counter + 1)
    ensures Remove(Add(s, task, priority, category).0, s.counter).1 == Some(Add(s, task, priority, category).1)
  {
    PyDict.PutThenPop(s.todos, s.counter, Add(s, task, priority, category).1);
  }

  /** One record against the three optional criteria of `get_items`. */
  predicate Matches(it: Item, priority: Option<string>, category: Option<string>, completed: Option<bool>) {
    && (priority.Some? ==> it.priority == priority.value)
    && (category.Some? ==> it.category == category.value)
    && (completed.Some? ==> it.completed == completed.value)
  }

  /** `get_items`: the list of records, narrowed by each criterion given, one
      after the other. Exactly the records meeting every criterion remain;
      with no criterion every record is returned in store order. */
  function GetItems(s: Store, priority: Option<string>, category: Option<string>, completed: Option<bool>): (r: seq<Item>)
    requires WellFormed(s)
    ensures forall it :: it in r <==> it in PyDict.Values(s.todos) && Matches(it, priority, category, completed)
    ensures priority.None? && category.None? && completed.None? ==> r == PyDict.Values(s.todos)
  {
    var all := PyDict.Values(s.todos);
    var byPriority := if priority.Some? then Filter(all, (it: Item) => it.priority == priority.value) else all;
    var byCategory := if category.Some? then Filter(byPriority, (it: Item) => it.category == category.value) else byPriority;
    if completed.Some? then Filter(byCategory, (it: Item) => it.completed == completed.value) else byCategory
  }

  /** The three successive narrowings are one conjunctive filter over the
      records in store order, so the result keeps store order. */
  lemma GetItemsIsOneFilter(s: Store, priority: Option<string>, category: Option<string>, completed: Option<bool>)
    requires WellFormed(s)
    ensures GetItems(s, priority, category, completed)
         == Filter(PyDict.Values(s.todos), (it: Item) => Matches(it, priority, category, completed))
  {
    var all := PyDict.Values(s.todos);
    var p1 := (it: Item) => priority.Some? ==> it.priority == priority.value;
    var p2 := (it: Item) => category.Some? ==> it.category == category.value;
    var p3 := (it: Item) => completed.Some? ==> it.completed == completed.value;
    var p12 := (it: Item) => p1(it) && p2(it);
    var m := (it: Item) => Matches(it, priority, category, completed);
    if priority.Some? {
      FilterCongruent(all, (it: Item) => it.priority == priority.value, p1);
    } else {
      FilterAll(all, p1);
    }
    if category.Some? {
      FilterCongruent(Filter(all, p1), (it: Item) => it.category == category.value, p2);
    } else {
      FilterAll(Filter(all, p1), p2);
    }
    FilterFilter(all, p1, p2, p12);
    if completed.Some? {
      FilterCongruent(Filter(all, p12), (it: Item) => it.completed == completed.value, p3);
    } else {
      FilterAll(Filter(all, p12), p3);
    }
    FilterFilter(all, p12, p3, m);
  }

  /** `get_item`: the record stored under `id`, or None. */
  function GetItem(s: Store, id: int): (r: Option<Item>)
    requires WellFormed(s)
    ensures r.None? <==> id !in s.todos.vals
    ensures r.Some? ==> r.value in GetItems(s, None, None, None)
    ensures Inv(s) && r.Some? ==> r.value.id == id
    ensures r == Remove(s, id).1
  {
    PyDict.ValuesExactly(s.todos);
    PyDict.Get(s.todos, id)
  }

  /** `update_item`: on a present id, every field passed as non-None takes
      the given value (`completed` through `bool(...)`), every other field,
      the id, the record's position and all other records stay. An absent id
      yields None and no change. */
  function Update(s: Store, id: int, task: Option<string>, priority: Option<string>,
                  category: Option<string>, completed: Json): (r: (Store, Option<Item>))
    requires WellFormed(s)
    ensures r.1.None? <==> id !in s.todos.vals
    ensures r.1.None? ==> r.0 == s
    ensures r.1.Some? ==>
      var before := s.todos.vals[id];
      var after := r.1.value;
      && after.id == before.id
      && (task.None? ==> after.task == before.task)
      && (task.Some? ==> after.task == task.value)
      && (priority.None? ==> after.priority == before.priority)
      && (priority.Some? ==> after.priority == priority.value)
      && (category.None? ==> after.category == before.category)
      && (category.Some? ==> after.category == category.value)
      && (completed.Null? ==> after.completed == before.completed)
      && (!completed.Null? ==> after.completed == Truthy(completed))
      && PyDict.Get(r.0.todos, id) == r.1
    ensures forall k :: k != id ==> PyDict.Get(r.0.todos, k) == PyDict.Get(s.todos, k)
    ensures r.0.todos.order == s.todos.order && r.0.counter == s.counter
    ensures WellFormed(r.0)
    ensures Inv(s) ==> Inv(r.0)
  {
    match PyDict.Get(s.todos, id)
    case None => (s, None)
    case Some(item) =>
      var item := if task.Some? then item.(task := task.value) else item;
      var item := if priority.Some? then item.(priority := priority.value) else item;
      var item := if category.Some? then item.(category := category.value) else item;
      var item := if !completed.Null? then item.(completed := Truthy(completed)) else item;
      (Store(PyDict.Put(s.todos, id, item), s.counter), Some(item))
  }

  /** An update that passes no field rewrites the record with itself. */
  lemma UpdateNothingIsIdentity(s: Store, id: int)
    requires WellFormed(s)
    ensures Update(s, id, None, None, None, Null).0 == s
  {
    if id in s.todos.vals {
      assert s.todos.vals[id := s.todos.vals[id]] == s.todos.vals;
    }
  }

  /** `toggle_item`: a present record has `completed` negated and nothing
      else changed; an absent id yields None and no change. */
  function Toggle(s: Store, id: int): (r: (Store, Option<Item>))
    requires WellFormed(s)
    ensures r.1.None? <==> id !in s.todos.vals
    ensures r.1.None? ==> r.0 == s
    ensures r.1.Some? ==> r.1.value == s.todos.vals[id].(completed := !s.todos.vals[id].completed)
    ensures r.1.Some? ==> PyDict.Get(r.0.todos, id) == r.1
    ensures forall k :: k != id ==> PyDict.Get(r.0.todos, k) == PyDict.Get(s.todos, k)
    ensures r.0.todos.order == s.todos.order && r.0.counter == s.counter
    ensures WellFormed(r.0)
    ensures Inv(s) ==> Inv(r.0)
  {
    match PyDict.Get(s.todos, id)
    case None => (s, None)
    case Some(item) =>
      var item := item.(completed := !item.completed);
      (Store(PyDict.Put(s.todos, id, item), s.counter), Some(item))
  }

  /** Toggling is an update of `completed` alone, to the opposite value. */
  lemma ToggleIsUpdate(s: Store, id: int)
    requires WellFormed(s) && id in s.todos.vals
    ensures Toggle(s, id) == Update(s, id, None, None, None, Bool(!s.todos.vals[id].completed))
  {
  }

  /** Toggling the same id twice restores the store. */
  lemma ToggleTwice(s: Store, id: int)
    requires WellFormed(s)
    ensures Toggle(Toggle(s, id).0, id).0 == s
  {
    if id in s.todos.vals {
      assert s.todos.vals[id := s.todos.vals[id]] == s.todos.vals;
    }
  }

  /** The completed share in percent, exactly; 0 when there is nothing to
      complete. */
  function Percent(done: nat, total: nat): (r: real)
    requires done <= total
    ensures 0.0 <= r <= 100.0
    ensures total == 0 ==> r == 0.0
    ensures r == 100.0 <==> total > 0 && done == total
  {
    if total > 0 then (100 * done) as real / total as real else 0.0
  }

  /** `progress`: the number of records, how many of them are completed, and
      the completed share in percent. */
  function Summary(s: Store): (p: Progress)
    requires WellFormed(s)
    ensures p.total == PyDict.Size(s.todos)
    ensures p.completed <= p.total
    ensures p.percent == Percent(p.completed, p.total)
  {
    var items := PyDict.Values(s.todos);
    var done := |Filter(items, (it: Item) => it.completed)|;
    Progress(|items|, done, Percent(done, |items|))
  }

  /** The counts of `progress` agree with `get_items`: `completed` is the
      number of completed records it lists, and the rest are the open ones. */
  lemma SummaryAgreesWithGetItems(s: Store)
    requires WellFormed(s)
    ensures Summary(s).total == |GetItems(s, None, None, None)|
    ensures Summary(s).completed == |GetItems(s, None, None, Some(true))|
    ensures Summary(s).total - Summary(s).completed == |GetItems(s, None, None, Some(false))|
  {
    var items := PyDict.Values(s.todos);
    var done := (it: Item) => it.completed;
    var open := (it: Item) => !done(it);
    GetItemsIsOneFilter(s, None, None, Some(true));
    GetItemsIsOneFilter(s, None, None, Some(false));
    FilterCongruent(items, done, (it: Item) => Matches(it, None, None, Some(true)));
    FilterCongruent(items, open, (it: Item) => Matches(it, None, None, Some(false)));
    FilterSplit(items, done, open);
  }
}

=== FILE: wrappers.dfy ===
/** Failure-carrying datatypes shared by the whole model.
    `Option` stands for a Python value that may be `None`;
    `Result` stands for a computation that may raise an exception. */
module Wrappers {

  datatype Option<+T> = None | Some(value: T)

  datatype Result<+T, +E> = Ok(value: T) | Err(error: E) {

    predicate IsFailure() {
      Err?
    }

    function PropagateFailure<U>(): Result<U, E>
      requires Err?
    {
      Err(error)
    }

    function Extract(): T
      requires Ok?
    {
      value
    }
  }
}
